=== FILE: README.md ===
# uw-dao: sequence allocation and route resolution in Dafny

This project models two parts of the uw-dao data-access library.

**SequenceManager** issues cluster-wide unique ids for each sequence name. Each manager holds a
window: `currentId` (the last id handed out, or the mark last loaded), `maxId` (the mark it last claimed) and
`incrementNum` (the block size).
- While the window has room, `nextUniqueID(value)` advances `currentId` by `value` and returns it.
- When the window is too small, `getNextBlock` refills it from the `sys_sequence` table. It makes
  up to 100 attempts.
- Each attempt, `getNextBlockImpl`, has two steps. First it loads the row. If the select finds no row or
  fails, it inserts one. Then it claims `currentId + incrementNum + value` with a conditional update:
  `... where sequence_id = <loaded value>`.

**DaoConfigManager** holds the configuration.
- `getRouteMapping(table, access)` resolves the connection-pool name for a table and access kind,
  and caches the result under `table + "^" + access`.
- Three small lookups read the pool and sharding sections of the configuration.

Files:
- `wrappers.dfy` defines `Option` (Java's null) and `Result` (a thrown exception).
- `sys_sequence.dfy` (module `SysSequence`) models the table as a class `SequenceTable` with three
  operations: `Load`, `CompareAndSwap` and `Insert`.
  - The rest of the cluster is a schedule of `Disturbance`s. Each store call meets one of them:
    `Calm`; `Outage`, a thrown SQL or connection error that the caller catches; or
    `Rival(claim)`, another process raising the mark by `claim` just before the call.
  - A rival only raises the mark of an existing row. Another process's bootstrap insert of a
    missing row, and an update that lowers the mark, are not disturbances (see "Left out").
  - The table's state, a `World`, holds the rows, the schedule and a clock counting the store
    calls made so far; the next call meets the disturbance at the clock's position, and all is
    calm past the schedule's end.
- `allocation.dfy` (module `Allocation`) gives the value-level meaning of each manager method
  (`LoadSeq`, `Attempt`, `NextBlock`, `NextUniqueId`) and proves the guarantees of the algorithm.
- `sequence_manager.dfy` (module `Sequences`) contains two classes.
  - `SequenceManager` has mutable fields `currentId`, `maxId` and `incrementNum`. Each of its
    methods is proved to compute the corresponding `Allocation` function.
  - `SequenceRegistry` is the static `seqManager` map, shared by all managers on one table.
- `routing.dfy` (module `Routing`) holds the configuration records as datatypes, and the pure
  route resolution: pick by access kind, the route-list scan, and the root and `""` fallbacks.
- `dao_config_manager.dfy` (module `ConfigManager`) contains the class `DaoConfigManager`, with
  the configuration, the route cache and the lookups.

Three behaviours of the code worth noting:
- The route list is not searched for the longest prefix. Every matching entry overwrites the
  pick, so the last match in iteration order wins, even when its pick is null
  (`Routing.LaterShorterPrefixWins`, `Routing.LaterMatchClearsPick`).
- `allocateIdRange(name, range)` returns the *last* id of the range it reserved. That is the value
  of `addAndGet`, not the range start.
- A missing row is bootstrapped with the manager's current `currentId` and `incrementNum`, not a
  fixed 0. A failed insert, for example because another process inserted the row first, is
  swallowed, and the attempt goes on to its conditional update.

## Model

| member | source | states |
|---|---|---|
| SysSequence.Loaded | src/main/java/uw/dao/SequenceManager.java:206-215 | the select yields the row exactly when the call does not throw and the row exists; the row returned is the one stored at that moment; a calm call or an outage leaves the table as it was, and a rival may only raise this row's mark |
| SysSequence.Swapped | src/main/java/uw/dao/SequenceManager.java:167-173 | the conditional update succeeds exactly when the call does not throw and the stored mark equals the expected value; success replaces the mark and keeps the block size; a failure writes nothing, leaving the table as a rival (if any) left it |
| SysSequence.Inserted | src/main/java/uw/dao/SequenceManager.java:246-255 | the insert adds the row when it is missing and the call does not throw; an existing row is left as it stands (unique key), changed only by a rival |
| SysSequence.SequenceTable.Load | src/main/java/uw/dao/SequenceManager.java:208-215 | the table object's select is `Loaded` on its state |
| SysSequence.SequenceTable.CompareAndSwap | src/main/java/uw/dao/SequenceManager.java:167-173 | the table object's conditional update is `Swapped` on its state |
| SysSequence.SequenceTable.Insert | src/main/java/uw/dao/SequenceManager.java:248-255 | the table object's insert is `Inserted` on its state |
| Allocation.LoadSeq | src/main/java/uw/dao/SequenceManager.java:201-237 | a found row overwrites `currentId` and `incrementNum`, read from the table as the select left it (which the select itself does not change); otherwise (the select threw or found nothing) the window is unchanged and initSeq's insert of `(currentId, incrementNum)` is what happens to the table next; `maxId` is never touched |
| Allocation.Attempt | src/main/java/uw/dao/SequenceManager.java:156-196 | the update succeeds exactly when the call does not throw, the row exists, and its mark at update time still equals the loaded `currentId`; a success sets `maxId` of the loaded window to its `currentId + incrementNum + value`, changes nothing else in it, and writes that value as the mark, keeping the block size; a failure leaves the loaded window as it is and writes nothing, so the table is as the load and a rival (if any) left it |
| Allocation.NextBlock | src/main/java/uw/dao/SequenceManager.java:128-142 | at most `MAX_RETRY_TIMES` (100) attempts, stopping at the first success; running out is not an error and leaves `maxId` as it was |
| Allocation.NextBlockStep | src/main/java/uw/dao/SequenceManager.java:128-142 | one turn of the retry loop: a successful attempt ends the refill with its result; a failed one leaves the rest of the refill to the remaining budget |
| Allocation.NextUniqueId | src/main/java/uw/dao/SequenceManager.java:116-121 | without a refill, `currentId` advances by `value`, and neither `maxId` nor the store changes; with one, `currentId` advances by `value` from the refilled window and the store is the refill's, whether or not the refill succeeded; the result is the advanced `currentId`; only a successful refill guarantees the result is within `maxId` |
| Allocation.FreshIsBacked | src/main/java/uw/dao/SequenceManager.java:51-75 | a new manager (0, 0, 1) is backed by any table with non-negative rows |
| Allocation.LoadSeqKeepsBacked | src/main/java/uw/dao/SequenceManager.java:211-215 | loading never moves `currentId` below an id already handed out, and never lowers the stored mark |
| Allocation.AttemptKeepsBacked | src/main/java/uw/dao/SequenceManager.java:160-176 | an attempt keeps every handed-out id and `maxId` at or below the stored mark; after a success, `currentId + value <= maxId` |
| Allocation.NextBlockKeepsBacked | src/main/java/uw/dao/SequenceManager.java:128-142 | the same for the whole retry loop, by induction on the attempts left |
| Allocation.NextUniqueIdKeepsBacked | src/main/java/uw/dao/SequenceManager.java:116-121 | unless the refill is exhausted, the returned range `(id - value, id]` starts at or above the old `currentId`, and the window stays backed |
| Allocation.RunDisjoint | src/main/java/uw/dao/SequenceManager.java:116-121 | as long as no refill is exhausted, successive calls on one manager return pairwise disjoint, ascending ranges `(id - value, id]`, under every schedule of the modelled disturbances |
| Allocation.OutageStep | src/main/java/uw/dao/SequenceManager.java:128-142 | one turn of the retry loop in which the select, the insert and the update all throw changes nothing and leaves one attempt fewer |
| Allocation.OutagesExhaust | src/main/java/uw/dao/SequenceManager.java:129-142 | with every store call failing, the loop makes exactly its budget of attempts and gives up silently, with the window as it was |
| Allocation.DuplicateAfterExhaustion | src/main/java/uw/dao/SequenceManager.java:116-142 | the as-written defect: after an exhausted refill the call still returns 1 above the stored mark, and the next call returns 1 again |
| Allocation.ReloadAfterOutage | src/main/java/uw/dao/SequenceManager.java:156-215 | the second call of that scenario reloads `currentId` 0 and claims (0, 2] |
| Allocation.Reserve | src/main/java/uw/dao/SequenceManager.java:116-121 | corrected call: it returns `None` exactly when a needed refill is exhausted, and then `maxId` is unchanged; otherwise it does exactly what nextUniqueID does and returns its id |
| Allocation.ReserveKeepsBacked | src/main/java/uw/dao/SequenceManager.java:116-121 | the corrected call keeps the window backed on every path, including refusal |
| Allocation.ReserveAllDisjoint | src/main/java/uw/dao/SequenceManager.java:116-142 | with exhaustion reported, the granted ranges are pairwise disjoint and ascending under every schedule of the modelled disturbances, outages included |
| Allocation.WindowServesOnes | src/main/java/uw/dao/SequenceManager.java:117-120 | while the window has room, `nextId` calls return `currentId + 1, + 2, ...` and make no store call |
| Allocation.WindowStep | src/main/java/uw/dao/SequenceManager.java:117-120 | one `nextId` call with room in the window returns `currentId + 1`, adds no exhaustion, and the calls after it start from the same table |
| Allocation.FirstCallRefills | src/main/java/uw/dao/SequenceManager.java:116-176 | a new manager on row `(0, block)` loads, claims `(0, block + 1]` and returns 1 |
| Allocation.OneRefillServes | src/main/java/uw/dao/SequenceManager.java:116-176 | a new manager on row `(0, block)` serves up to `block + 1` `nextId` calls, returning 1, 2, 3, ... in order, with one select and one update |
| Sequences.SequenceManager.constructor | src/main/java/uw/dao/SequenceManager.java:72-75 | a new manager holds `currentId` 0, `maxId` 0, `incrementNum` 1 |
| Sequences.SequenceManager.InitSeq | src/main/java/uw/dao/SequenceManager.java:242-274 | inserts the row `(currentId, incrementNum)`; a failure is swallowed |
| Sequences.SequenceManager.LoadSeq | src/main/java/uw/dao/SequenceManager.java:201-237 | the new window and table are `Allocation.LoadSeq` of the old ones |
| Sequences.SequenceManager.GetNextBlockImpl | src/main/java/uw/dao/SequenceManager.java:156-196 | the new window, table and success flag are `Allocation.Attempt` of the old ones |
| Sequences.SequenceManager.GetNextBlock | src/main/java/uw/dao/SequenceManager.java:128-142 | the bounded loop with early exit computes `Allocation.NextBlock` with budget 100 (loop invariant over the attempt counter) |
| Sequences.SequenceManager.NextUniqueId | src/main/java/uw/dao/SequenceManager.java:116-121 | the new window, table and result are `Allocation.NextUniqueId` of the old ones |
| Sequences.SequenceManager.NextUniqueIdChecked | src/main/java/uw/dao/SequenceManager.java:116-121 | the corrected call on the object: it computes `Allocation.Reserve` |
| Sequences.SequenceRegistry.constructor | src/main/java/uw/dao/SequenceManager.java:38 | the registry starts empty |
| Sequences.SequenceRegistry.NextSysSequence | src/main/java/uw/dao/SequenceManager.java:105-108 | the manager for the name is reused, or created fresh on first use and filed under the name; it computes `Allocation.NextUniqueId`; no other manager changes |
| Sequences.SequenceRegistry.NextId | src/main/java/uw/dao/SequenceManager.java:83-85 | `nextSysSequence(name, 1)`: the new window, table and id are `Allocation.NextUniqueId` with value 1; it reuses the manager filed under the name, or files a fresh one under it on first use; no other manager changes |
| Sequences.SequenceRegistry.AllocateIdRange | src/main/java/uw/dao/SequenceManager.java:94-96 | `nextSysSequence(name, range)`: the result is the last id of the range; it reuses the manager filed under the name, or files a fresh one under it on first use; no other manager changes |
| Routing.PoolNameByAccess | src/main/java/uw/dao/conf/DaoConfigManager.java:142-154 | case-insensitive `write` picks the write pool and `read` the read pool; any other access picks neither; an unset pick, including an unset write or read pool, falls back to `all`; the result is null exactly when every applicable pool is unset |
| Routing.EqualsIgnoreCase | src/main/java/uw/dao/conf/DaoConfigManager.java:144-146 | `equalsIgnoreCase`: strings that agree letter by letter up to ASCII case match; a match has equal lengths and agrees exactly on every non-letter |
| Routing.AccessKindsIgnoreCase | src/main/java/uw/dao/conf/DaoConfigManager.java:144-146 | `write` matches `WRITE` and `read` matches `ReAd` |
| Routing.PoolNameByAccessIgnoresCase | src/main/java/uw/dao/conf/DaoConfigManager.java:144-146 | access strings that differ only in letter case pick the same pool |
| Routing.ListPoolName | src/main/java/uw/dao/conf/DaoConfigManager.java:109-114 | the pick after the route-list loop: when it is not null, it is the access pick of some entry whose prefix starts the table name |
| Routing.LastMatchWins | src/main/java/uw/dao/conf/DaoConfigManager.java:109-114 | the last entry, in iteration order, whose prefix starts the table name decides the pick, whatever matched earlier |
| Routing.NoMatchNoName | src/main/java/uw/dao/conf/DaoConfigManager.java:109-114 | with no matching prefix, the list leaves the pick null |
| Routing.LaterShorterPrefixWins | src/main/java/uw/dao/conf/DaoConfigManager.java:109-114 | a shorter prefix listed after a longer one wins: the scan is not longest-prefix |
| Routing.LaterMatchClearsPick | src/main/java/uw/dao/conf/DaoConfigManager.java:110-113 | a later match with no pool for the access kind overwrites an earlier pick with null |
| Routing.ResolveRoute | src/main/java/uw/dao/conf/DaoConfigManager.java:103-127 | list pick first; the root route only when the list left the pick null; `""` when neither yields a pool or there is no route section |
| Routing.RootWhenNoListMatch | src/main/java/uw/dao/conf/DaoConfigManager.java:116-122 | when no list entry matches, the root route alone decides, or `""` without one |
| ConfigManager.RouteKey | src/main/java/uw/dao/conf/DaoConfigManager.java:101 | the cache key is the table name, `^`, then the access string |
| ConfigManager.RouteKeyCollides | src/main/java/uw/dao/conf/DaoConfigManager.java:101 | table names containing `^` make two different lookups share one cache entry |
| ConfigManager.DaoConfigManager.constructor | src/main/java/uw/dao/conf/DaoConfigManager.java:24-29 | no configuration and an empty cache |
| ConfigManager.DaoConfigManager.SetConfig | src/main/java/uw/dao/conf/DaoConfigManager.java:42-44 | replaces the configuration and leaves cached routes as they were |
| ConfigManager.DaoConfigManager.GetTableShardingConfig | src/main/java/uw/dao/conf/DaoConfigManager.java:71-76 | the table's sharding settings exactly when the configuration, its sharding section and the table's entry all exist |
| ConfigManager.DaoConfigManager.GetConnPoolConfig | src/main/java/uw/dao/conf/DaoConfigManager.java:84-89 | the root pool for a null or empty name, otherwise the named pool or null; it throws exactly when a missing section is dereferenced |
| ConfigManager.DaoConfigManager.GetConnPoolNameList | src/main/java/uw/dao/conf/DaoConfigManager.java:51-62 | every listed pool name once, then `""` when a root pool exists; empty without a pool section; throws without a configuration; every returned name other than `""` resolves to a pool through `GetConnPoolConfig` |
| ConfigManager.DaoConfigManager.GetRouteMapping | src/main/java/uw/dao/conf/DaoConfigManager.java:100-131 | a cached name is returned without consulting the configuration; otherwise, with a configuration, the result is `ResolveRoute` (never null) and is cached; without one, the result is null and nothing is cached |
| ConfigManager.DaoConfigManager.RepeatedLookup | src/main/java/uw/dao/conf/DaoConfigManager.java:101-103 | with a configuration present, a second identical lookup returns the first one's pool name, which stays cached |

## Left out

- JDBC plumbing (connections, statements, closing, `ConnectionManager.getConnection` with its own
  `getRouteMapping("sys_sequence", "all")` call) is not modelled. Every exception in it becomes an
  `Outage` disturbance of the one store call it interrupts.
- The select is one call. A connection failure in `loadSeq` after `currentId` was read but before
  `incrementNum` was read is not distinguished; both are read together or not at all.
- Logging, `Thread.sleep(600)` between attempts, `InterruptedException`, and the timestamp
  columns (`create_date`, `last_update`, `table_desc`) do not affect ids and are not modelled.
- Threads: `synchronized`, `AtomicLong` and `ConcurrentHashMap` become plain sequential fields
  and maps. Other processes appear only as `Rival` disturbances between whole store calls.
- Another process's bootstrap insert of a missing row is not a disturbance: `Rival` acts only on
  an existing row. So, in the model, an insert meets an existing row only when the select before
  it threw; the race in which another process inserts the row between our select and our insert
  is not covered.
- A rival update that lowers the mark, as `allocateIdRange` with a negative range can make
  (`currentId + incrementNum + value` below `currentId`), is not a disturbance: `Rival` claims
  are non-negative. The disjointness lemmas hold for the modelled disturbances only.
- Allocation.NextUniqueId: Java `long`/`int` overflow of `currentId`, `maxId`, `newID` and
  `incrementNum` is not modelled, because integers here are unbounded.
- Null arguments (a null sequence name, table name or access string) are not modelled. The one
  null argument the code handles on purpose, the pool name of `getConnPoolConfig`, is modelled.
- A null route in the route list is not modelled; the Java code would dereference it and throw.
- Routing.EqualsIgnoreCase: case folding covers ASCII letters only. Java's `equalsIgnoreCase`
  also folds a few other characters to `I` or `i` (the dotless `ı`, for one), so `"wrıte"`
  selects the write pool in Java but not in this model.
- `getConfig` is a plain getter of the `config` field and has no member of its own.
- `ConnPoolConfig` and `TableShardingConfig` carry their settings as uninterpreted maps; their
  fields are not part of the lookups modelled here.
- `DaoSpringAutoConfiguration.java` (Spring start-up wiring and default filling) is not part of
  this model.

## Findings

| source | as written | input that shows it | evidently intended | confidence | as-written member | corrected member |
|---|---|---|---|---|---|---|
| src/main/java/uw/dao/SequenceManager.java:116-142 | when all 100 refill attempts fail, `getNextBlock` returns quietly and `nextUniqueID` still advances `currentId` and returns an id the store never granted | row `(0, 1)`; the database fails for the 300 store calls of the first refill, then recovers; `nextId` returns 1, then 1 again | an exhausted refill is reported to the caller and no id is handed out | not executed | Allocation.DuplicateAfterExhaustion | Allocation.ReserveAllDisjoint |

The corrected call is `Allocation.Reserve`, implemented on the object as
`Sequences.SequenceManager.NextUniqueIdChecked`. The registry's `NextId` and `AllocateIdRange`
keep the behaviour as written.

=== FILE: allocation.dfy ===
/**
 * The id generator of SequenceManager as functions over values: a manager's
 * window (`currentId`, `maxId`, `incrementNum`) and the store's `World`. Each
 * function is the meaning of one method of the class in sequence_manager.dfy,
 * and the lemmas below state what the algorithm guarantees.
 */
module Allocation {
  import opened Wrappers
  import opened SysSequence

  /** MAX_RETRY_TIMES: the number of refill attempts one refill makes. */
  const MaxRetryTimes: nat := 100

  /**
   * A manager's local state. `addAndGet` hands out ids up to `maxId`, the mark
   * this manager last claimed in the store; `incrementNum` is the block size
   * last read from the store.
   */
  datatype Window = Window(currentId: int, maxId: int, incrementNum: int)

  /** A newly constructed manager: `currentId` 0, `maxId` 0 (Java's default), `incrementNum` 1. */
  const Fresh := Window(0, 0, 1)

  /**
   * loadSeq: when the select finds the row, `currentId` and `incrementNum` are
   * overwritten from it; otherwise (no row, or the select threw) initSeq
   * inserts a row holding the current `currentId` and `incrementNum`.
   */
  function LoadSeq(win: Window, w: World, name: string): (r: (Window, World))
    ensures r.0.maxId == win.maxId
    ensures r.1.schedule == w.schedule && (r.1.clock == w.clock + 1 || r.1.clock == w.clock + 2)
    ensures Upcoming(w) != Outage && name in w.rows ==>
      && name in r.1.rows
      && r.0 == Window(r.1.rows[name].sequenceId, win.maxId, r.1.rows[name].incrementNum)
    ensures Upcoming(w) == Outage || name !in w.rows ==> r.0 == win
    ensures name in w.rows ==> Grown(w.rows, r.1.rows, name)
    ensures Upcoming(w) != Outage && name in w.rows ==> r.1 == Loaded(w, name).0
    ensures name !in w.rows && name in r.1.rows ==> r.1.rows[name] == Row(win.currentId, win.incrementNum)
    ensures Upcoming(w) == Outage || name !in w.rows ==>
      r.1 == Inserted(Loaded(w, name).0, name, Row(win.currentId, win.incrementNum))
  {
    var selected := Loaded(w, name);
    match selected.1
    case Some(stored) => (Window(stored.sequenceId, win.maxId, stored.incrementNum), selected.0)
    case None => (win, Inserted(selected.0, name, Row(win.currentId, win.incrementNum)))
  }

  /**
   * getNextBlockImpl: load, propose `newId = currentId + incrementNum + value`
   * from the loaded window, and try the conditional update expecting the
   * loaded `currentId`. Only a successful update sets `maxId`.
   */
  function Attempt(win: Window, w: World, name: string, value: int): (r: (Window, World, bool))
    ensures r.2 ==> r.0.maxId == r.0.currentId + r.0.incrementNum + value
    ensures r.2 ==> name in r.1.rows && r.1.rows[name].sequenceId == r.0.maxId
    ensures !r.2 ==> r.0.maxId == win.maxId
    ensures !r.2 ==> var l := LoadSeq(win, w, name); r.1.rows == Interfere(l.1.rows, name, Upcoming(l.1))
    ensures var l := LoadSeq(win, w, name);
      && (r.2 <==>
            && Upcoming(l.1) != Outage
            && name in l.1.rows
            && Interfere(l.1.rows, name, Upcoming(l.1))[name].sequenceId == l.0.currentId)
      && (!r.2 ==> r.0 == l.0)
      && (r.2 ==> r.0 == l.0.(maxId := l.0.currentId + l.0.incrementNum + value))
      && (r.2 ==> r.1.rows == l.1.rows[name := Row(r.0.maxId, l.1.rows[name].incrementNum)])
  {
    var loaded := LoadSeq(win, w, name);
    var newId := loaded.0.currentId + loaded.0.incrementNum + value;
    var swapped := Swapped(loaded.1, name, loaded.0.currentId, newId);
    (if swapped.1 then loaded.0.(maxId := newId) else loaded.0, swapped.0, swapped.1)
  }

  /** The outcome of a refill: the window and store after it, whether it succeeded, and how many attempts it made. */
  datatype Block = Block(win: Window, world: World, refilled: bool, attempts: nat)

  /**
   * getNextBlock with `budget` attempts left: attempt, stop at the first
   * success, otherwise try again until the budget is spent. Running out of
   * attempts is not an error: the window simply keeps its old `maxId`.
   */
  function NextBlock(win: Window, w: World, name: string, value: int, budget: nat): (r: Block)
    ensures r.attempts <= budget
    ensures r.refilled ==> 1 <= r.attempts && r.win.maxId == r.win.currentId + r.win.incrementNum + value
    ensures r.refilled ==> name in r.world.rows && r.world.rows[name].sequenceId == r.win.maxId
    ensures !r.refilled ==> r.attempts == budget && r.win.maxId == win.maxId
    decreases budget
  {
    if budget == 0 then Block(win, w, false, 0)
    else
      var a := Attempt(win, w, name, value);
      if a.2 then Block(a.0, a.1, true, 1)
      else
        var b := NextBlock(a.0, a.1, name, value, budget - 1);
        b.(attempts := b.attempts + 1)
  }

  /** One turn of the retry loop: a success ends it, a failure leaves one attempt fewer. */
  lemma NextBlockStep(win: Window, w: World, name: string, value: int, budget: nat)
    requires budget > 0
    ensures var a := Attempt(win, w, name, value);
      var b := NextBlock(win, w, name, value, budget);
      var rest := NextBlock(a.0, a.1, name, value, budget - 1);
      && (a.2 ==> b.win == a.0 && b.world == a.1 && b.refilled)
      && (!a.2 ==> b.win == rest.win && b.world == rest.world && b.refilled == rest.refilled)
  {
  }

  /** True when a call needs a refill and every one of its attempts fails. */
  predicate Exhausts(win: Window, w: World, name: string, value: int) {
    win.currentId + value > win.maxId && !NextBlock(win, w, name, value, MaxRetryTimes).refilled
  }

  /**
   * nextUniqueID: refill only when `currentId + value > maxId`, then advance
   * `currentId` by `value` and return the advanced value, whether or not the
   * refill succeeded.
   */
  function NextUniqueId(win: Window, w: World, name: string, value: int): (r: (Window, World, int))
    ensures r.2 == r.0.currentId
    ensures win.currentId + value <= win.maxId ==> r.0 == win.(currentId := win.currentId + value) && r.1 == w
    ensures win.currentId + value > win.maxId ==>
      var b := NextBlock(win, w, name, value, MaxRetryTimes);
      && (b.refilled && r.0.incrementNum >= 0 ==> r.2 <= r.0.maxId)
      && (!b.refilled ==> r.0.maxId == win.maxId)
      && r.0 == b.win.(currentId := b.win.currentId + value)
      && r.1 == b.world
  {
    if win.currentId + value > win.maxId then
      var b := NextBlock(win, w, name, value, MaxRetryTimes);
      (b.win.(currentId := b.win.currentId + value), b.world, b.win.currentId + value)
    else
      (win.(currentId := win.currentId + value), w, win.currentId + value)
  }

  // ---------------------------------------------------------------------------
  // The window is backed by the store
  // ---------------------------------------------------------------------------

  /**
   * Every id the manager has handed out lies at or below the persisted mark,
   * and so does its `maxId`; block sizes are non-negative. While the row is
   * missing the manager holds no claim (`maxId <= currentId`).
   */
  ghost predicate Backed(win: Window, w: World, name: string) {
    && win.incrementNum >= 0
    && (name in w.rows ==>
          && w.rows[name].incrementNum >= 0
          && win.currentId <= w.rows[name].sequenceId
          && win.maxId <= w.rows[name].sequenceId)
    && (name !in w.rows ==> win.maxId <= win.currentId)
  }

  /** The row of `name`, once present, stays, and its mark does not decrease. */
  ghost predicate MarkKept(w: World, w': World, name: string) {
    name in w.rows ==> name in w'.rows && w.rows[name].sequenceId <= w'.rows[name].sequenceId
  }

  /** A newly constructed manager is backed by any table whose row (if any) has a non-negative mark and block size. */
  lemma FreshIsBacked(w: World, name: string)
    requires name in w.rows ==> w.rows[name].sequenceId >= 0 && w.rows[name].incrementNum >= 0
    ensures Backed(Fresh, w, name)
  {
  }

  /** Loading never moves `currentId` below what was handed out: the loaded mark is at least every id and the claimed `maxId`. */
  lemma LoadSeqKeepsBacked(win: Window, w: World, name: string)
    requires Backed(win, w, name)
    ensures var (win1, w1) := LoadSeq(win, w, name);
      Backed(win1, w1, name) && win.currentId <= win1.currentId && MarkKept(w, w1, name)
  {
  }

  /** One attempt keeps the window backed and never lowers the stored mark; a success leaves room for `value` ids. */
  lemma AttemptKeepsBacked(win: Window, w: World, name: string, value: int)
    requires Backed(win, w, name) && value >= 0
    ensures var (win1, w1, ok) := Attempt(win, w, name, value);
      && Backed(win1, w1, name)
      && win.currentId <= win1.currentId
      && MarkKept(w, w1, name)
      && (ok ==> win1.currentId + value <= win1.maxId)
  {
    LoadSeqKeepsBacked(win, w, name);
  }

  /** A whole refill, successful or not, keeps the window backed and never lowers the stored mark. */
  lemma {:induction false} NextBlockKeepsBacked(win: Window, w: World, name: string, value: int, budget: nat)
    requires Backed(win, w, name) && value >= 0
    ensures var b := NextBlock(win, w, name, value, budget);
      && Backed(b.win, b.world, name)
      && win.currentId <= b.win.currentId
      && MarkKept(w, b.world, name)
      && (b.refilled ==> b.win.currentId + value <= b.win.maxId)
    decreases budget
  {
    if budget > 0 {
      AttemptKeepsBacked(win, w, name, value);
      var (win1, w1, ok) := Attempt(win, w, name, value);
      if !ok {
        NextBlockKeepsBacked(win1, w1, name, value, budget - 1);
      }
    }
  }

  /**
   * Unless its refill is exhausted, a call returns an id whose range
   * `(id - value, id]` starts at or above every id handed out before, and
   * the window stays backed.
   */
  lemma NextUniqueIdKeepsBacked(win: Window, w: World, name: string, value: int)
    requires Backed(win, w, name) && value >= 0
    requires !Exhausts(win, w, name, value)
    ensures var (win1, w1, id) := NextUniqueId(win, w, name, value);
      Backed(win1, w1, name) && win.currentId <= id - value && MarkKept(w, w1, name)
  {
    if win.currentId + value > win.maxId {
      NextBlockKeepsBacked(win, w, name, value, MaxRetryTimes);
    }
  }

  // ---------------------------------------------------------------------------
  // Successive calls on one manager
  // ---------------------------------------------------------------------------

  /**
   * The ranges `(ids[j] - values[j], ids[j]]` lie at or above `floor` and are
   * pairwise disjoint and ascending.
   */
  ghost predicate Ascending(floor: int, ids: seq<int>, values: seq<int>) {
    && |ids| == |values|
    && (forall j :: 0 <= j < |ids| ==> floor <= ids[j] - values[j])
    && (forall i, j :: 0 <= i < j < |ids| ==> ids[i] <= ids[j] - values[j])
  }

  lemma AscendingCons(floor: int, id: int, v: int, ids: seq<int>, values: seq<int>)
    requires 0 <= v && floor <= id - v
    requires Ascending(id, ids, values)
    ensures Ascending(floor, [id] + ids, [v] + values)
  {
    var ids', values' := [id] + ids, [v] + values;
    forall i, j | 0 <= i < j < |ids'| ensures ids'[i] <= ids'[j] - values'[j] {
      assert ids'[j] == ids[j - 1] && values'[j] == values[j - 1];
      if i > 0 { assert ids'[i] == ids[i - 1]; }
    }
    forall j | 0 <= j < |ids'| ensures floor <= ids'[j] - values'[j] {
      if j > 0 { assert ids'[j] == ids[j - 1] && values'[j] == values[j - 1]; }
    }
  }

  /** The ids returned by successive calls with the given values, and whether any call exhausted its refill. */
  datatype Trace = Trace(win: Window, world: World, ids: seq<int>, exhausted: bool)

  function Run(win: Window, w: World, name: string, values: seq<int>): (t: Trace)
    ensures |t.ids| == |values|
    decreases |values|
  {
    if values == [] then Trace(win, w, [], false)
    else
      var (win1, w1, id) := NextUniqueId(win, w, name, values[0]);
      var t := Run(win1, w1, name, values[1..]);
      Trace(t.win, t.world, [id] + t.ids, Exhausts(win, w, name, values[0]) || t.exhausted)
  }

  /**
   * As long as no refill is exhausted, the ranges `(ids[j] - values[j], ids[j]]`
   * returned by successive calls are pairwise disjoint and ascending, and none
   * reaches below the manager's starting `currentId`.
   */
  lemma {:induction false} RunDisjoint(win: Window, w: World, name: string, values: seq<int>)
    requires Backed(win, w, name)
    requires forall k :: 0 <= k < |values| ==> values[k] >= 0
    requires !Run(win, w, name, values).exhausted
    ensures Ascending(win.currentId, Run(win, w, name, values).ids, values)
    decreases |values|
  {
    if values != [] {
      var (win1, w1, id) := NextUniqueId(win, w, name, values[0]);
      NextUniqueIdKeepsBacked(win, w, name, values[0]);
      var rest := values[1..];
      RunDisjoint(win1, w1, name, rest);
      AscendingCons(win.currentId, id, values[0], Run(win1, w1, name, rest).ids, rest);
      assert values == [values[0]] + rest;
    }
  }

  // ---------------------------------------------------------------------------
  // Exhausted refills
  // ---------------------------------------------------------------------------

  /** The next `n` store calls all fail. */
  ghost predicate OutagesAhead(w: World, n: nat) {
    w.clock + n <= |w.schedule| && forall k :: w.clock <= k < w.clock + n ==> w.schedule[k] == Outage
  }

  /**
   * When every store call fails, each attempt makes three calls (select,
   * insert, update) and changes nothing, and the refill gives up after its
   * budget with the window as it was.
   */
  lemma {:induction false} OutagesExhaust(win: Window, w: World, name: string, value: int, budget: nat)
    requires OutagesAhead(w, 3 * budget)
    ensures var b := NextBlock(win, w, name, value, budget);
      b.win == win && b.world == World(w.rows, w.schedule, w.clock + 3 * budget) && !b.refilled
    decreases budget
  {
    var b := NextBlock(win, w, name, value, budget);
    if budget == 0 {
      assert b == Block(win, w, false, 0);
    } else {
      var w3 := World(w.rows, w.schedule, w.clock + 3);
      OutageStep(win, w, name, value, budget);
      OutagesExhaust(win, w3, name, value, budget - 1);
      var rest := NextBlock(win, w3, name, value, budget - 1);
      assert b.win == rest.win && b.world == rest.world && b.refilled == rest.refilled;
    }
  }

  /** One turn of the retry loop under three outages: the select, the insert and the update all fail, and nothing changes. */
  lemma OutageStep(win: Window, w: World, name: string, value: int, budget: nat)
    requires budget > 0 && OutagesAhead(w, 3 * budget)
    ensures OutagesAhead(World(w.rows, w.schedule, w.clock + 3), 3 * (budget - 1))
    ensures var b := NextBlock(win, w, name, value, budget);
      var rest := NextBlock(win, World(w.rows, w.schedule, w.clock + 3), name, value, budget - 1);
      b.win == rest.win && b.world == rest.world && b.refilled == rest.refilled
  {
    assert w.schedule[w.clock] == Outage && w.schedule[w.clock + 1] == Outage && w.schedule[w.clock + 2] == Outage;
    assert Loaded(w, name) == (World(w.rows, w.schedule, w.clock + 1), None);
    assert LoadSeq(win, w, name) == (win, World(w.rows, w.schedule, w.clock + 2));
    var a := Attempt(win, w, name, value);
    assert a.0 == win && a.1 == World(w.rows, w.schedule, w.clock + 3) && !a.2;
  }

  /**
   * The retry loop swallows exhaustion. Say the row of `name` was bootstrapped
   * (mark 0, block size 1) and the database then fails for all 100 attempts of
   * the first refill (300 store calls). The first nextUniqueID(1) still returns
   * 1, above the stored mark. Once the database answers again, the next call
   * reloads `currentId` 0 from the row, claims (0, 2] and returns 1 a second time.
   */
  lemma DuplicateAfterExhaustion(name: string, w0: World)
    requires name in w0.rows && w0.rows[name] == Row(0, 1)
    requires OutagesAhead(w0, 3 * MaxRetryTimes) && |w0.schedule| == w0.clock + 3 * MaxRetryTimes
    ensures Backed(Fresh, w0, name) && Exhausts(Fresh, w0, name, 1)
    ensures
      var first := NextUniqueId(Fresh, w0, name, 1);
      var second := NextUniqueId(first.0, first.1, name, 1);
      && first.2 == 1
      && first.1.rows == w0.rows
      && second.2 == 1
  {
    var b := NextBlock(Fresh, w0, name, 1, MaxRetryTimes);
    var w1 := World(w0.rows, w0.schedule, |w0.schedule|);
    assert b.win == Fresh && b.world == w1 by {
      OutagesExhaust(Fresh, w0, name, 1, MaxRetryTimes);
    }
    var first := NextUniqueId(Fresh, w0, name, 1);
    assert first.0 == Window(1, 0, 1);
    assert first.1 == w1;
    ReloadAfterOutage(name, first.1);
  }

  /** The second call of DuplicateAfterExhaustion: the database answers again and the row still holds mark 0. */
  lemma ReloadAfterOutage(name: string, w1: World)
    requires name in w1.rows && w1.rows[name] == Row(0, 1) && w1.clock >= |w1.schedule|
    ensures NextUniqueId(Window(1, 0, 1), w1, name, 1).2 == 1
    ensures NextUniqueId(Window(1, 0, 1), w1, name, 1).0.maxId == 2
  {
    assert LoadSeq(Window(1, 0, 1), w1, name) == (Window(0, 0, 1), Tick(w1, w1.rows));
    var w2 := World(w1.rows[name := Row(2, 1)], w1.schedule, w1.clock + 2);
    assert Attempt(Window(1, 0, 1), w1, name, 1) == (Window(0, 2, 1), w2, true);
  }

  // ---------------------------------------------------------------------------
  // Exhaustion surfaced as an error
  // ---------------------------------------------------------------------------

  /**
   * nextUniqueID with the exhausted refill reported as `None` instead of an
   * id; the window and the store are left as the failed attempts left them.
   */
  function Reserve(win: Window, w: World, name: string, value: int): (r: (Window, World, Option<int>))
    ensures r.2.Some? ==> r.2.value == r.0.currentId
    ensures r.2.None? ==> r.0.maxId == win.maxId && win.currentId + value > win.maxId
    ensures r.2.None? <==> Exhausts(win, w, name, value)
    ensures !Exhausts(win, w, name, value) ==>
      var n := NextUniqueId(win, w, name, value);
      r.0 == n.0 && r.1 == n.1 && r.2 == Some(n.2)
  {
    if win.currentId + value <= win.maxId then
      (win.(currentId := win.currentId + value), w, Some(win.currentId + value))
    else
      var b := NextBlock(win, w, name, value, MaxRetryTimes);
      if b.refilled then (b.win.(currentId := b.win.currentId + value), b.world, Some(b.win.currentId + value))
      else (b.win, b.world, None)
  }

  /** Every call of Reserve, granted or refused, keeps the window backed; a granted range starts at or above the old `currentId`. */
  lemma ReserveKeepsBacked(win: Window, w: World, name: string, value: int)
    requires Backed(win, w, name) && value >= 0
    ensures var (win1, w1, id) := Reserve(win, w, name, value);
      && Backed(win1, w1, name)
      && win.currentId <= win1.currentId
      && MarkKept(w, w1, name)
      && (id.Some? ==> id.value == win1.currentId && win.currentId <= id.value - value)
  {
    if win.currentId + value > win.maxId {
      NextBlockKeepsBacked(win, w, name, value, MaxRetryTimes);
    }
  }

  /** Successive calls of Reserve: the id granted to each call, or `None` where its refill was exhausted. */
  function ReserveAll(win: Window, w: World, name: string, values: seq<int>): (grants: seq<Option<int>>)
    ensures |grants| == |values|
    decreases |values|
  {
    if values == [] then []
    else
      var (win1, w1, id) := Reserve(win, w, name, values[0]);
      [id] + ReserveAll(win1, w1, name, values[1..])
  }

  /** Like Ascending, over the granted entries of `grants` only. */
  ghost predicate GrantsAscending(floor: int, grants: seq<Option<int>>, values: seq<int>) {
    && |grants| == |values|
    && (forall j :: 0 <= j < |grants| && grants[j].Some? ==> floor <= grants[j].value - values[j])
    && (forall i, j :: 0 <= i < j < |grants| && grants[i].Some? && grants[j].Some? ==>
          grants[i].value <= grants[j].value - values[j])
  }

  lemma GrantsAscendingCons(floor: int, next: int, id: Option<int>, v: int, grants: seq<Option<int>>, values: seq<int>)
    requires 0 <= v && floor <= next
    requires id.Some? ==> floor <= id.value - v && id.value <= next
    requires GrantsAscending(next, grants, values)
    ensures GrantsAscending(floor, [id] + grants, [v] + values)
  {
    var g', values' := [id] + grants, [v] + values;
    forall i, j | 0 <= i < j < |g'| && g'[i].Some? && g'[j].Some?
      ensures g'[i].value <= g'[j].value - values'[j]
    {
      assert g'[j] == grants[j - 1] && values'[j] == values[j - 1];
      if i > 0 { assert g'[i] == grants[i - 1]; }
    }
    forall j | 0 <= j < |g'| && g'[j].Some? ensures floor <= g'[j].value - values'[j] {
      if j > 0 { assert g'[j] == grants[j - 1] && values'[j] == values[j - 1]; }
    }
  }

  /**
   * Under every schedule of the modelled disturbances, the ranges granted by
   * successive calls of Reserve are pairwise disjoint and ascending.
   */
  lemma {:induction false} ReserveAllDisjoint(win: Window, w: World, name: string, values: seq<int>)
    requires Backed(win, w, name)
    requires forall k :: 0 <= k < |values| ==> values[k] >= 0
    ensures GrantsAscending(win.currentId, ReserveAll(win, w, name, values), values)
    decreases |values|
  {
    if values != [] {
      var (win1, w1, id) := Reserve(win, w, name, values[0]);
      ReserveKeepsBacked(win, w, name, values[0]);
      var rest := values[1..];
      ReserveAllDisjoint(win1, w1, name, rest);
      GrantsAscendingCons(win.currentId, win1.currentId, id, values[0], ReserveAll(win1, w1, name, rest), rest);
      assert values == [values[0]] + rest;
    }
  }

  // ---------------------------------------------------------------------------
  // Block amortisation
  // ---------------------------------------------------------------------------

  /**
   * While the window has room, calls make no store call at all: successive
   * nextId calls hand out the next ids one by one and leave the table and the
   * schedule as they were.
   */
  lemma {:induction false} WindowServesOnes(win: Window, w: World, name: string, values: seq<int>)
    requires forall k :: 0 <= k < |values| ==> values[k] == 1
    requires win.currentId + |values| <= win.maxId
    ensures var t := Run(win, w, name, values);
      && t.world == w
      && !t.exhausted
      && forall j :: 0 <= j < |values| ==> t.ids[j] == win.currentId + j + 1
    decreases |values|
  {
    if values != [] {
      var win1 := win.(currentId := win.currentId + 1);
      WindowServesOnes(win1, w, name, values[1..]);
      WindowStep(win, w, name, values);
      var t1 := Run(win1, w, name, values[1..]);
      var t := Run(win, w, name, values);
      forall j | 1 <= j < |values| ensures t.ids[j] == win.currentId + j + 1 {
        assert t.ids[j] == t1.ids[j - 1];
      }
    }
  }

  /** One call with room in the window: it returns `currentId + 1` and makes no store call. */
  lemma WindowStep(win: Window, w: World, name: string, values: seq<int>)
    requires values != [] && values[0] == 1 && win.currentId + 1 <= win.maxId
    ensures var t := Run(win, w, name, values);
      var t1 := Run(win.(currentId := win.currentId + 1), w, name, values[1..]);
      t.world == t1.world && t.exhausted == t1.exhausted && t.ids == [win.currentId + 1] + t1.ids
  {
    assert NextUniqueId(win, w, name, 1) == (win.(currentId := win.currentId + 1), w, win.currentId + 1);
    assert !Exhausts(win, w, name, 1);
  }

  /** The first call on a new manager: one select and one update claim (0, block + 1] and return 1. */
  lemma FirstCallRefills(name: string, w0: World, block: nat)
    requires name in w0.rows && w0.rows[name] == Row(0, block)
    requires w0.clock + 2 <= |w0.schedule| && w0.schedule[w0.clock] == Calm && w0.schedule[w0.clock + 1] == Calm
    ensures
      var r := NextUniqueId(Fresh, w0, name, 1);
      && r.0 == Window(1, block + 1, block)
      && r.1 == World(w0.rows[name := Row(block + 1, block)], w0.schedule, w0.clock + 2)
      && r.2 == 1
    ensures !Exhausts(Fresh, w0, name, 1)
  {
    var w1 := World(w0.rows[name := Row(block + 1, block)], w0.schedule, w0.clock + 2);
    assert LoadSeq(Fresh, w0, name) == (Window(0, 0, block), Tick(w0, w0.rows));
    assert Attempt(Fresh, w0, name, 1) == (Window(0, block + 1, block), w1, true);
  }

  /**
   * A new manager on a row `(0, block)` serves up to `block + 1` nextId calls
   * with one select and one update: they return 1, 2, 3, ... in order and
   * claim (0, block + 1].
   */
  lemma {:induction false} OneRefillServes(name: string, w0: World, block: nat, values: seq<int>)
    requires forall k :: 0 <= k < |values| ==> values[k] == 1
    requires 1 <= |values| <= block + 1
    requires name in w0.rows && w0.rows[name] == Row(0, block)
    requires w0.clock + 2 <= |w0.schedule| && w0.schedule[w0.clock] == Calm && w0.schedule[w0.clock + 1] == Calm
    ensures
      var t := Run(Fresh, w0, name, values);
      && t.world == World(w0.rows[name := Row(block + 1, block)], w0.schedule, w0.clock + 2)
      && !t.exhausted
      && forall j :: 0 <= j < |values| ==> t.ids[j] == j + 1
  {
    var w1 := World(w0.rows[name := Row(block + 1, block)], w0.schedule, w0.clock + 2);
    var win1 := Window(1, block + 1, block);
    var rest := values[1..];
    var t1 := Run(win1, w1, name, rest);
    WindowServesOnes(win1, w1, name, rest);
    FirstCallRefills(name, w0, block);
    var t := Run(Fresh, w0, name, values);
    assert t.ids == [1] + t1.ids && t.world == t1.world && t.exhausted == (Exhausts(Fresh, w0, name, 1) || t1.exhausted);
    forall j | 1 <= j < |values| ensures t.ids[j] == j + 1 {
      assert t.ids[j] == t1.ids[j - 1];
    }
  }
}

=== FILE: dao_config_manager.dfy ===
/**
 * DaoConfigManager: the process-wide configuration and the cache of resolved
 * routes, as one object. Lookups that dereference a missing configuration
 * section fail with `NullPointer`, as the Java code throws there.
 */
module ConfigManager {
  import opened Wrappers
  import opened Routing

  /** The exception a lookup throws. */
  datatype Fault = NullPointer

  /** The cache key of a route lookup: `table + "^" + access`. */
  function RouteKey(table: string, access: string): (key: string)
    ensures |key| == |table| + 1 + |access|
    ensures key[..|table|] == table && key[|table|] == '^' && key[|table| + 1..] == access
  {
    table + "^" + access
  }

  /**
   * The cache key does not tell `(table, access)` pairs apart when a table
   * name contains `^`: two different lookups share one cache entry.
   */
  lemma RouteKeyCollides()
    ensures RouteKey("a^b", "c") == RouteKey("a", "b^c")
  {
    assert RouteKey("a^b", "c") == ['a', '^', 'b', '^', 'c'];
    assert RouteKey("a", "b^c") == ['a', '^', 'b', '^', 'c'];
  }

  /** The names of the pools `pool` lists. */
  function ListedPools(pool: ConnPool): (names: set<string>)
    ensures pool.list.None? ==> names == {}
    ensures pool.list.Some? ==> names == pool.list.value.Keys
  {
    if pool.list.Some? then pool.list.value.Keys else {}
  }

  class DaoConfigManager {
    /** The configuration; absent until it is set. */
    var config: Option<DaoConfig>
    /** routeMap: resolved pool names by RouteKey. */
    var routeMap: map<string, string>

    constructor()
      ensures config.None? && routeMap == map[]
    {
      config := None;
      routeMap := map[];
    }

    /** setConfig: replaces the configuration; routes already cached stay cached. */
    method SetConfig(c: Option<DaoConfig>)
      modifies this`config
      ensures config == c && routeMap == old(routeMap)
    {
      config := c;
    }

    /**
     * getTableShardingConfig: the table's sharding settings, or nothing when
     * the configuration or its sharding section is absent or the table is not
     * listed.
     */
    function GetTableShardingConfig(tableName: string): (r: Option<TableShardingConfig>)
      reads this
      ensures r.Some? <==>
        config.Some? && config.value.tableSharding.Some? && tableName in config.value.tableSharding.value
      ensures r.Some? ==> r.value == config.value.tableSharding.value[tableName]
    {
      if config.None? || config.value.tableSharding.None? then None
      else if tableName in config.value.tableSharding.value then Some(config.value.tableSharding.value[tableName])
      else None
    }

    /**
     * getConnPoolConfig: the root pool for a null or empty name, otherwise the
     * named pool; a missing configuration or pool section, or a missing pool
     * list for a named lookup, is dereferenced and throws.
     */
    function GetConnPoolConfig(name: Option<string>): (r: Result<Option<ConnPoolConfig>, Fault>)
      reads this
      ensures r.Failure? <==>
        || config.None?
        || config.value.connPool.None?
        || (name.Some? && name.value != "" && config.value.connPool.value.list.None?)
      ensures r.Success? && (name.None? || name == Some("")) ==> r.value == config.value.connPool.value.root
      ensures r.Success? && name.Some? && name.value != "" ==>
        var list := config.value.connPool.value.list.value;
        (r.value.Some? <==> name.value in list) && (r.value.Some? ==> r.value.value == list[name.value])
    {
      if config.None? || config.value.connPool.None? then Failure(NullPointer)
      else
        var pool := config.value.connPool.value;
        if name.None? || name.value == "" then Success(pool.root)
        else if pool.list.None? then Failure(NullPointer)
        else if name.value in pool.list.value then Success(Some(pool.list.value[name.value]))
        else Success(None)
    }

    /**
     * getConnPoolNameList: every listed pool name once (in the map's own
     * order), then `""` when a root pool exists; empty without a pool section.
     * Every name it returns other than `""` has a pool behind it, and so does
     * `""` when it stands for the root pool.
     */
    method GetConnPoolNameList() returns (r: Result<seq<string>, Fault>)
      ensures r.Failure? <==> config.None?
      ensures config.Some? && config.value.connPool.None? ==> r == Success([])
      ensures r.Success? && config.value.connPool.Some? ==>
        var pool := config.value.connPool.value;
        var keys := ListedPools(pool);
        if pool.root.Some? then
          && |r.value| == |keys| + 1
          && multiset(r.value[..|keys|]) == multiset(keys)
          && r.value[|keys|] == ""
          && GetConnPoolConfig(Some("")) == Success(pool.root)
        else multiset(r.value) == multiset(keys)
      ensures r.Success? ==> forall i :: 0 <= i < |r.value| && r.value[i] != "" ==>
        GetConnPoolConfig(Some(r.value[i])).Success? && GetConnPoolConfig(Some(r.value[i])).value.Some?
    {
      if config.None? {
        return Failure(NullPointer);
      }
      var names: seq<string> := [];
      if config.value.connPool.Some? {
        var pool := config.value.connPool.value;
        var keys := ListedPools(pool);
        if pool.list.Some? {
          var remaining := pool.list.value.Keys;
          while remaining != {}
            invariant remaining <= keys
            invariant multiset(names) + multiset(remaining) == multiset(keys)
            decreases |remaining|
          {
            var k :| k in remaining;
            names := names + [k];
            remaining := remaining - {k};
          }
        }
        assert multiset(names) == multiset(keys);
        assert |names| == |keys| by {
          assert |multiset(names)| == |names|;
          assert |multiset(keys)| == |keys|;
        }
        assert forall i :: 0 <= i < |names| ==> names[i] in keys by {
          forall i | 0 <= i < |names| ensures names[i] in keys {
            assert names[i] in multiset(names);
          }
        }
        if pool.root.Some? {
          names := names + [""];
          assert names[..|keys|] == names[..|names| - 1];
        }
      }
      r := Success(names);
    }

    /**
     * getRouteMapping: a cached pool name is returned as it is; otherwise,
     * with a configuration present, the route is resolved, cached under
     * RouteKey(table, access) and returned; with no configuration the result
     * is null and nothing is cached.
     */
    method GetRouteMapping(table: string, access: string) returns (poolName: Option<string>)
      modifies this`routeMap
      ensures var key := RouteKey(table, access);
        && (key in old(routeMap) ==> poolName == Some(old(routeMap)[key]) && routeMap == old(routeMap))
        && (key !in old(routeMap) && config.None? ==> poolName.None? && routeMap == old(routeMap))
        && (key !in old(routeMap) && config.Some? ==>
              && poolName == Some(ResolveRoute(config.value, table, access))
              && routeMap == old(routeMap)[key := poolName.value])
    {
      var key := RouteKey(table, access);
      if key in routeMap {
        return Some(routeMap[key]);
      }
      if config.None? {
        return None;
      }
      var name: Option<string> := None;
      if config.value.connRoute.Some? {
        var connRoute := config.value.connRoute.value;
        if connRoute.list.Some? {
          var entries := connRoute.list.value;
          for i := 0 to |entries|
            invariant name == ListPoolName(entries[..i], table, access)
          {
            assert entries[..i + 1][..i] == entries[..i];
            if entries[i].prefix <= table {
              name := PoolNameByAccess(entries[i].route, access);
            }
          }
          assert entries[..|entries|] == entries;
        }
        if name.None? && connRoute.root.Some? {
          name := PoolNameByAccess(connRoute.root.value, access);
        }
      }
      var resolved := if name.None? then "" else name.value;
      routeMap := routeMap[key := resolved];
      poolName := Some(resolved);
    }

    /**
     * Once a configuration is present, a route lookup returns a pool name,
     * and the same lookup again returns the same name without resolving it
     * anew.
     */
    method RepeatedLookup(table: string, access: string) returns (first: Option<string>, second: Option<string>)
      requires config.Some?
      modifies this`routeMap
      ensures first.Some? && second == first
      ensures RouteKey(table, access) in routeMap && routeMap[RouteKey(table, access)] == first.value
    {
      first := GetRouteMapping(table, access);
      second := GetRouteMapping(table, access);
    }
  }
}

=== FILE: routing.dfy ===
/**
 * The configuration records DaoConfigManager reads, and the pure part of
 * route resolution: choosing a pool by access kind, scanning the route list
 * for matching table-name prefixes, and the fallbacks to the root route and
 * to the default pool `""`.
 *
 * A Java `null` is `None`. The route list, a Java map walked with
 * `entrySet()`, is the sequence of its entries in iteration order.
 */
module Routing {
  import opened Wrappers

  /** ConnRouteConfig: the pool for writes, for reads, and for everything else. */
  datatype ConnRouteConfig = ConnRouteConfig(write: Option<string>, read: Option<string>, all: Option<string>)

  /** One entry of the route list: a table-name prefix and its route. */
  datatype RouteEntry = RouteEntry(prefix: string, route: ConnRouteConfig)

  /** ConnRoute: the root route and the route list, each possibly absent. */
  datatype ConnRoute = ConnRoute(root: Option<ConnRouteConfig>, list: Option<seq<RouteEntry>>)

  /** ConnPoolConfig: the settings of one connection pool, not interpreted here. */
  datatype ConnPoolConfig = ConnPoolConfig(settings: map<string, string>)

  /** ConnPool: the root pool (named `""`) and the named pools, each possibly absent. */
  datatype ConnPool = ConnPool(root: Option<ConnPoolConfig>, list: Option<map<string, ConnPoolConfig>>)

  /** TableShardingConfig: the sharding settings of one table, not interpreted here. */
  datatype TableShardingConfig = TableShardingConfig(settings: map<string, string>)

  /** DaoConfig: the three sections DaoConfigManager consults, each possibly absent. */
  datatype DaoConfig = DaoConfig(
    connPool: Option<ConnPool>,
    connRoute: Option<ConnRoute>,
    tableSharding: Option<map<string, TableShardingConfig>>)

  /** A letter folded to lower case; characters outside `A`..`Z` are unchanged. */
  function AsciiLower(c: char): (r: char)
    ensures 'a' <= r <= 'z' <==> 'a' <= c <= 'z' || 'A' <= c <= 'Z'
    ensures !('A' <= c <= 'Z') ==> r == c
    ensures 'A' <= c <= 'Z' ==> r as int == c as int + 32
  {
    if 'A' <= c <= 'Z' then (c as int + ('a' as int - 'A' as int)) as char else c
  }

  /** String.equalsIgnoreCase over ASCII letters: equal lengths, and equal letters up to case. */
  predicate EqualsIgnoreCase(a: string, b: string): (r: bool)
    ensures a == b ==> r
    ensures r ==> |a| == |b|
    ensures r ==> forall i :: 0 <= i < |a| && !('A' <= a[i] <= 'Z') && !('a' <= a[i] <= 'z') ==> a[i] == b[i]
    ensures (&& |a| == |b|
             && forall i :: 0 <= i < |a| ==>
                  || a[i] == b[i]
                  || ('A' <= a[i] <= 'Z' && b[i] as int == a[i] as int + 32)
                  || ('A' <= b[i] <= 'Z' && a[i] as int == b[i] as int + 32)) ==> r
  {
    |a| == |b| && forall i :: 0 <= i < |a| ==> AsciiLower(a[i]) == AsciiLower(b[i])
  }

  /**
   * getPoolNameByAccess: `"write"` (any case) picks the write pool, `"read"`
   * the read pool, anything else neither; an unset pick falls back to `all`.
   */
  function PoolNameByAccess(route: ConnRouteConfig, access: string): (r: Option<string>)
    ensures r.Some? ==> r == route.write || r == route.read || r == route.all
    ensures EqualsIgnoreCase("write", access) && route.write.Some? ==> r == route.write
    ensures EqualsIgnoreCase("read", access) && route.read.Some? ==> r == route.read
    ensures EqualsIgnoreCase("write", access) && route.write.None? ==> r == route.all
    ensures EqualsIgnoreCase("read", access) && route.read.None? ==> r == route.all
    ensures !EqualsIgnoreCase("write", access) && !EqualsIgnoreCase("read", access) ==> r == route.all
    ensures r.None? <==>
      && route.all.None?
      && (EqualsIgnoreCase("write", access) ==> route.write.None?)
      && (EqualsIgnoreCase("read", access) ==> route.read.None?)
  {
    var picked :=
      if EqualsIgnoreCase("write", access) then route.write
      else if EqualsIgnoreCase("read", access) then route.read
      else None;
    if picked.None? then route.all else picked
  }

  /** The access kinds match in any letter case. */
  lemma AccessKindsIgnoreCase()
    ensures EqualsIgnoreCase("write", "WRITE") && EqualsIgnoreCase("read", "ReAd")
  {
  }

  /** Access strings that differ only in the case of ASCII letters pick the same pool. */
  lemma PoolNameByAccessIgnoresCase(route: ConnRouteConfig, a: string, b: string)
    requires EqualsIgnoreCase(a, b)
    ensures PoolNameByAccess(route, a) == PoolNameByAccess(route, b)
  {
    assert EqualsIgnoreCase("write", a) <==> EqualsIgnoreCase("write", b);
    assert EqualsIgnoreCase("read", a) <==> EqualsIgnoreCase("read", b);
  }

  /**
   * `poolName` once the loop over the route list has visited `entries`
   * (it starts out null): each entry whose prefix starts `table` overwrites
   * it, with the entry's pick even when that pick is null.
   */
  function ListPoolName(entries: seq<RouteEntry>, table: string, access: string): (r: Option<string>)
    ensures r.Some? ==>
      exists j :: 0 <= j < |entries| && entries[j].prefix <= table && r == PoolNameByAccess(entries[j].route, access)
    decreases |entries|
  {
    if entries == [] then None
    else
      var last := entries[|entries| - 1];
      if last.prefix <= table then PoolNameByAccess(last.route, access)
      else ListPoolName(entries[..|entries| - 1], table, access)
  }

  /** The last entry in iteration order whose prefix starts `table` decides, whatever matched before it. */
  lemma {:induction false} LastMatchWins(entries: seq<RouteEntry>, table: string, access: string, k: nat)
    requires k < |entries| && entries[k].prefix <= table
    requires forall j :: k < j < |entries| ==> !(entries[j].prefix <= table)
    ensures ListPoolName(entries, table, access) == PoolNameByAccess(entries[k].route, access)
    decreases |entries|
  {
    if k < |entries| - 1 {
      var front := entries[..|entries| - 1];
      assert forall j :: k < j < |front| ==> front[j] == entries[j];
      LastMatchWins(front, table, access, k);
    }
  }

  /** When no prefix starts `table`, the list contributes nothing. */
  lemma {:induction false} NoMatchNoName(entries: seq<RouteEntry>, table: string, access: string)
    requires forall j :: 0 <= j < |entries| ==> !(entries[j].prefix <= table)
    ensures ListPoolName(entries, table, access) == None
    decreases |entries|
  {
    if entries != [] {
      var front := entries[..|entries| - 1];
      assert forall j :: 0 <= j < |front| ==> front[j] == entries[j];
      NoMatchNoName(front, table, access);
    }
  }

  /** The list is not searched for the longest prefix: a shorter prefix listed later wins. */
  lemma LaterShorterPrefixWins()
    ensures
      var users := RouteEntry("user_", ConnRouteConfig(None, None, Some("userdb")));
      var rest := RouteEntry("u", ConnRouteConfig(None, None, Some("main")));
      ListPoolName([users, rest], "user_info", "read") == Some("main")
  {
    var users := RouteEntry("user_", ConnRouteConfig(None, None, Some("userdb")));
    var rest := RouteEntry("u", ConnRouteConfig(None, None, Some("main")));
    LastMatchWins([users, rest], "user_info", "read", 1);
  }

  /** A later match whose route has no pool for the access kind clears an earlier match's pick. */
  lemma LaterMatchClearsPick()
    ensures
      var catchAll := RouteEntry("", ConnRouteConfig(None, None, Some("main")));
      var writes := RouteEntry("order", ConnRouteConfig(Some("orderdb"), None, None));
      ListPoolName([catchAll, writes], "order_item", "read") == None
  {
    var catchAll := RouteEntry("", ConnRouteConfig(None, None, Some("main")));
    var writes := RouteEntry("order", ConnRouteConfig(Some("orderdb"), None, None));
    LastMatchWins([catchAll, writes], "order_item", "read", 1);
  }

  /**
   * The pool getRouteMapping settles on for a present configuration, before
   * caching: the route list's pick; failing that, the root route's pick;
   * failing that, the default pool `""`.
   */
  function ResolveRoute(config: DaoConfig, table: string, access: string): (r: string)
    ensures config.connRoute.None? ==> r == ""
    ensures config.connRoute.Some? ==>
      var route := config.connRoute.value;
      var listed := if route.list.Some? then ListPoolName(route.list.value, table, access) else None;
      var rooted := if route.root.Some? then PoolNameByAccess(route.root.value, access) else None;
      && (listed.Some? ==> r == listed.value)
      && (listed.None? && rooted.Some? ==> r == rooted.value)
      && (listed.None? && rooted.None? ==> r == "")
  {
    match config.connRoute
    case None => ""
    case Some(route) =>
      var listed := if route.list.Some? then ListPoolName(route.list.value, table, access) else None;
      var picked := if listed.None? && route.root.Some? then PoolNameByAccess(route.root.value, access) else listed;
      picked.GetOr("")
  }

  /** With no matching list entry, the root route decides (or `""` without one). */
  lemma RootWhenNoListMatch(config: DaoConfig, table: string, access: string)
    requires config.connRoute.Some?
    requires var list := config.connRoute.value.list;
      list.Some? ==> forall j :: 0 <= j < |list.value| ==> !(list.value[j].prefix <= table)
    ensures var root := config.connRoute.value.root;
      ResolveRoute(config, table, access) ==
        if root.Some? then PoolNameByAccess(root.value, access).GetOr("") else ""
  {
    var list := config.connRoute.value.list;
    if list.Some? {
      NoMatchNoName(list.value, table, access);
    }
  }
}

=== FILE: sequence_manager.dfy ===
/**
 * SequenceManager as the object it is: a manager per sequence name, holding
 * its window in mutable fields and talking to the shared `sys_sequence` table,
 * and the process-wide registry that creates managers on first use. Every
 * method is proved to do what the corresponding function of Allocation says,
 * so the guarantees proved there (the window stays backed, ranges are
 * disjoint while no refill is exhausted, the exhaustion defect) are
 * guarantees of these methods.
 */
module Sequences {
  import opened Wrappers
  import opened SysSequence
  import Allocation

  /** The id generator of one sequence name. */
  class SequenceManager {
    const name: string
    const store: SequenceTable
    var currentId: int
    var maxId: int
    var incrementNum: int

    /** The window this manager holds. */
    function State(): Allocation.Window
      reads this
    {
      Allocation.Window(currentId, maxId, incrementNum)
    }

    /** A new manager hands out nothing before its first refill: `currentId` and `maxId` are 0, `incrementNum` is 1. */
    constructor(name: string, store: SequenceTable)
      ensures this.name == name && this.store == store
      ensures State() == Allocation.Fresh
    {
      this.name := name;
      this.store := store;
      currentId := 0;
      maxId := 0;
      incrementNum := 1;
    }

    /** Inserts the row for `name` from the current window; a failed insert is swallowed. */
    method InitSeq()
      modifies store
      ensures store.State() == Inserted(old(store.State()), name, Row(currentId, incrementNum))
    {
      store.Insert(name, Row(currentId, incrementNum));
    }

    /** Reads `currentId` and `incrementNum` from the row, or inserts the row when nothing was read. */
    method LoadSeq()
      modifies this, store
      ensures (State(), store.State()) == Allocation.LoadSeq(old(State()), old(store.State()), name)
    {
      var row := store.Load(name);
      match row
      case Some(stored) =>
        currentId, incrementNum := stored.sequenceId, stored.incrementNum;
      case None =>
        InitSeq();
    }

    /** One refill attempt: load, then claim `currentId + incrementNum + value` by a conditional update. */
    method GetNextBlockImpl(value: int) returns (success: bool)
      modifies this, store
      ensures (State(), store.State(), success) == Allocation.Attempt(old(State()), old(store.State()), name, value)
    {
      LoadSeq();
      var newId := currentId + incrementNum + value;
      success := store.CompareAndSwap(name, currentId, newId);
      if success {
        maxId := newId;
      }
    }

    /**
     * Up to MaxRetryTimes attempts, stopping at the first success. The source
     * returns nothing; `refilled` tells whether an attempt succeeded, and
     * nextUniqueID as written ignores it.
     */
    method GetNextBlock(value: int) returns (refilled: bool)
      modifies this, store
      ensures var b := Allocation.NextBlock(old(State()), old(store.State()), name, value, Allocation.MaxRetryTimes);
        State() == b.win && store.State() == b.world && refilled == b.refilled
    {
      ghost var target := Allocation.NextBlock(State(), store.State(), name, value, Allocation.MaxRetryTimes);
      refilled := false;
      var i := 0;
      while i < Allocation.MaxRetryTimes
        invariant 0 <= i <= Allocation.MaxRetryTimes
        invariant !refilled
        invariant var b := Allocation.NextBlock(State(), store.State(), name, value, Allocation.MaxRetryTimes - i);
          b.win == target.win && b.world == target.world && b.refilled == target.refilled
      {
        Allocation.NextBlockStep(State(), store.State(), name, value, Allocation.MaxRetryTimes - i);
        var success := GetNextBlockImpl(value);
        if success {
          refilled := true;
          break;
        }
        i := i + 1;
      }
    }

    /** Refills when `currentId + value` passes `maxId`, then advances `currentId` by `value` and returns it. */
    method NextUniqueId(value: int) returns (id: int)
      modifies this, store
      ensures var r := Allocation.NextUniqueId(old(State()), old(store.State()), name, value);
        State() == r.0 && store.State() == r.1 && id == r.2
    {
      ghost var target := Allocation.NextUniqueId(State(), store.State(), name, value);
      if currentId + value > maxId {
        var _ := GetNextBlock(value);
      }
      currentId := currentId + value;
      id := currentId;
      assert State() == target.0;
    }

    /**
     * nextUniqueID with an exhausted refill reported instead of swallowed:
     * no id is handed out and `currentId` is not advanced by `value` (it holds
     * whatever the last attempt loaded).
     */
    method NextUniqueIdChecked(value: int) returns (id: Option<int>)
      modifies this, store
      ensures var r := Allocation.Reserve(old(State()), old(store.State()), name, value);
        State() == r.0 && store.State() == r.1 && id == r.2
    {
      if currentId + value > maxId {
        var refilled := GetNextBlock(value);
        if !refilled {
          return None;
        }
      }
      currentId := currentId + value;
      id := Some(currentId);
    }
  }

  /** The process-wide map from sequence name to its manager, all of them sharing one table. */
  class SequenceRegistry {
    const store: SequenceTable
    var managers: map<string, SequenceManager>

    /** Each manager is filed under its own name and works on the shared table. */
    ghost predicate Valid()
      reads this
    {
      forall n :: n in managers ==> managers[n].name == n && managers[n].store == store
    }

    constructor(store: SequenceTable)
      ensures this.store == store && managers == map[]
      ensures Valid()
    {
      this.store := store;
      managers := map[];
    }

    /**
     * nextSysSequence: the manager for `name`, created on first use, hands out
     * the next id; no other manager changes.
     */
    method NextSysSequence(name: string, value: int) returns (id: int)
      requires Valid()
      modifies this, store, if name in managers then {managers[name]} else {}
      ensures Valid()
      ensures name in managers
      ensures old(name in managers) ==> managers == old(managers)
      ensures old(name !in managers) ==> fresh(managers[name]) && managers == old(managers)[name := managers[name]]
      ensures var before := if old(name in managers) then old(managers[name].State()) else Allocation.Fresh;
        (managers[name].State(), store.State(), id) == Allocation.NextUniqueId(before, old(store.State()), name, value)
      ensures forall n :: n in old(managers) && n != name ==> managers[n].State() == old(managers[n].State())
    {
      var manager;
      if name in managers {
        manager := managers[name];
      } else {
        manager := new SequenceManager(name, store);
        managers := managers[name := manager];
      }
      id := manager.NextUniqueId(value);
    }

    /** nextId: the next single id of `name`. */
    method NextId(name: string) returns (id: int)
      requires Valid()
      modifies this, store, if name in managers then {managers[name]} else {}
      ensures Valid() && name in managers
      ensures old(name in managers) ==> managers == old(managers)
      ensures old(name !in managers) ==> fresh(managers[name]) && managers == old(managers)[name := managers[name]]
      ensures var before := if old(name in managers) then old(managers[name].State()) else Allocation.Fresh;
        (managers[name].State(), store.State(), id) == Allocation.NextUniqueId(before, old(store.State()), name, 1)
      ensures forall n :: n in old(managers) && n != name ==> managers[n].State() == old(managers[n].State())
    {
      id := NextSysSequence(name, 1);
    }

    /** allocateIdRange: reserves `range` ids of `name` and returns the last of them. */
    method AllocateIdRange(name: string, range: int) returns (id: int)
      requires Valid()
      modifies this, store, if name in managers then {managers[name]} else {}
      ensures Valid() && name in managers
      ensures old(name in managers) ==> managers == old(managers)
      ensures old(name !in managers) ==> fresh(managers[name]) && managers == old(managers)[name := managers[name]]
      ensures var before := if old(name in managers) then old(managers[name].State()) else Allocation.Fresh;
        (managers[name].State(), store.State(), id) == Allocation.NextUniqueId(before, old(store.State()), name, range)
      ensures forall n :: n in old(managers) && n != name ==> managers[n].State() == old(managers[n].State())
    {
      id := NextSysSequence(name, range);
    }
  }
}

=== FILE: sys_sequence.dfy ===
/**
 * The persisted side of the id generator: the `sys_sequence` table, one row per
 * sequence name, reduced to the three statements SequenceManager issues
 * against it (a select, a conditional update and an insert).
 *
 * The rest of the cluster is not modelled as threads. Instead every store call
 * meets one `Disturbance`, taken from a schedule fixed up front: nothing
 * happens, the call fails (a connection or SQL error that the caller catches and
 * logs), or another process claims a block on the same row just before the call.
 * A rival here raises an existing row's mark, as a successful conditional
 * update with a non-negative block does. Two moves of other processes are not
 * disturbances: inserting a missing row, and an update that lowers the mark.
 */
module SysSequence {
  import opened Wrappers

  /** A row: `sequence_id` (the high-water mark) and `increment_num` (the block size). */
  datatype Row = Row(sequenceId: int, incrementNum: int)

  /** What the rest of the cluster does around one store call. */
  datatype Disturbance =
    | Calm               // the call runs alone
    | Outage             // the call throws; it has no effect on the table
    | Rival(claim: nat)  // another process first raises this row's mark by `claim`

  /**
   * The table's contents, the disturbances of the whole run, and the clock:
   * the number of store calls made so far.
   */
  datatype World = World(rows: map<string, Row>, schedule: seq<Disturbance>, clock: nat)

  /** The disturbance the next store call meets; past the end of the schedule all is calm. */
  function Upcoming(w: World): Disturbance {
    if w.clock < |w.schedule| then w.schedule[w.clock] else Calm
  }

  /** The world once the next store call has happened and left the table as `rows`. */
  function Tick(w: World, rows: map<string, Row>): (r: World)
    ensures r.rows == rows && r.schedule == w.schedule && r.clock == w.clock + 1
  {
    World(rows, w.schedule, w.clock + 1)
  }

  /**
   * `after` differs from `before` at most in the row of `name`, whose mark may
   * only have grown and whose block size is unchanged.
   */
  ghost predicate Grown(before: map<string, Row>, after: map<string, Row>, name: string) {
    if name in before then
      && name in after
      && after == before[name := after[name]]
      && after[name].incrementNum == before[name].incrementNum
      && before[name].sequenceId <= after[name].sequenceId
    else after == before
  }

  /** The table once a rival process has (or has not) claimed a block on `name`'s row. */
  function Interfere(rows: map<string, Row>, name: string, d: Disturbance): (r: map<string, Row>)
    ensures Grown(rows, r, name)
    ensures d.Rival? && name in rows ==> r[name].sequenceId == rows[name].sequenceId + d.claim
    ensures !d.Rival? ==> r == rows
  {
    if d.Rival? && name in rows
    then rows[name := Row(rows[name].sequenceId + d.claim, rows[name].incrementNum)]
    else rows
  }

  /**
   * `select sequence_id, increment_num from sys_sequence where table_name = ?`:
   * the row as stored at the moment of the select, or nothing when the row is
   * missing or the statement throws.
   */
  function Loaded(w: World, name: string): (r: (World, Option<Row>))
    ensures r.0.schedule == w.schedule && r.0.clock == w.clock + 1
    ensures Grown(w.rows, r.0.rows, name)
    ensures !Upcoming(w).Rival? ==> r.0.rows == w.rows
    ensures r.1.Some? <==> Upcoming(w) != Outage && name in w.rows
    ensures r.1.Some? ==> name in r.0.rows && r.1.value == r.0.rows[name]
  {
    var d := Upcoming(w);
    var rows := Interfere(w.rows, name, d);
    (Tick(w, rows), if d.Outage? || name !in rows then None else Some(rows[name]))
  }

  /**
   * `update sys_sequence set sequence_id = newId ... where table_name = ? and
   * sequence_id = expected`: succeeds exactly when one row matched, that is when
   * the row exists and its mark, as it stands when the update runs, is `expected`.
   * A success replaces the mark and keeps the block size; a failure writes nothing.
   */
  function Swapped(w: World, name: string, expected: int, newId: int): (r: (World, bool))
    ensures r.0.schedule == w.schedule && r.0.clock == w.clock + 1
    ensures r.1 <==>
      && Upcoming(w) != Outage
      && name in w.rows
      && Interfere(w.rows, name, Upcoming(w))[name].sequenceId == expected
    ensures r.1 ==> r.0.rows == w.rows[name := Row(newId, w.rows[name].incrementNum)]
    ensures !r.1 ==> Grown(w.rows, r.0.rows, name)
    ensures !r.1 ==> r.0.rows == Interfere(w.rows, name, Upcoming(w))
    ensures Upcoming(w) == Calm ==> (r.1 <==> name in w.rows && w.rows[name].sequenceId == expected)
  {
    var d := Upcoming(w);
    var rows := Interfere(w.rows, name, d);
    if !d.Outage? && name in rows && rows[name].sequenceId == expected then
      (Tick(w, rows[name := Row(newId, rows[name].incrementNum)]), true)
    else
      (Tick(w, rows), false)
  }

  /**
   * `insert into sys_sequence ...`: adds the row unless the statement throws;
   * when a row for `name` already exists the unique key makes the insert throw,
   * and the existing row stays as it is.
   */
  function Inserted(w: World, name: string, row: Row): (r: World)
    ensures r.schedule == w.schedule && r.clock == w.clock + 1
    ensures name in w.rows ==> Grown(w.rows, r.rows, name)
    ensures name in w.rows ==> r.rows == Interfere(w.rows, name, Upcoming(w))
    ensures name !in w.rows && Upcoming(w) == Outage ==> r.rows == w.rows
    ensures name !in w.rows && Upcoming(w) != Outage ==> r.rows == w.rows[name := row]
  {
    var d := Upcoming(w);
    var rows := Interfere(w.rows, name, d);
    Tick(w, if d.Outage? || name in rows then rows else rows[name := row])
  }

  /** The table as an object shared by every SequenceManager of the process. */
  class SequenceTable {
    var rows: map<string, Row>
    var schedule: seq<Disturbance>
    var clock: nat

    function State(): World
      reads this
    {
      World(rows, schedule, clock)
    }

    /** A table holding `rows`, before any store call of the run `schedule`. */
    constructor(rows: map<string, Row>, schedule: seq<Disturbance>)
      ensures State() == World(rows, schedule, 0)
    {
      this.rows := rows;
      this.schedule := schedule;
      clock := 0;
    }

    method Load(name: string) returns (row: Option<Row>)
      modifies this
      ensures (State(), row) == Loaded(old(State()), name)
    {
      var r := Loaded(State(), name);
      rows, clock, row := r.0.rows, r.0.clock, r.1;
    }

    method CompareAndSwap(name: string, expected: int, newId: int) returns (ok: bool)
      modifies this
      ensures (State(), ok) == Swapped(old(State()), name, expected, newId)
    {
      var r := Swapped(State(), name, expected, newId);
      rows, clock, ok := r.0.rows, r.0.clock, r.1;
    }

    method Insert(name: string, row: Row)
      modifies this
      ensures State() == Inserted(old(State()), name, row)
    {
      var w := Inserted(State(), name, row);
      rows, clock := w.rows, w.clock;
    }
  }
}

=== FILE: wrappers.dfy ===
/** Optional values and results, standing in for Java's null and for thrown exceptions. */
module Wrappers {

  /** A value that may be absent (a Java reference that may be null). */
  datatype Option<+T> = None | Some(value: T) {

    /** The value, or `default` when there is none. */
    function GetOr(default: T): T {
      match this
      case Some(v) => v
      case None => default
    }
  }

  /** The outcome of an operation that may throw instead of returning. */
  datatype Result<+T, +E> = Success(value: T) | Failure(error: E)
}
